=== FILE: README.md ===
# Hackathon site: API decisions and submissions listing, in Dafny

This project models the logic of a hackathon website that can be stated as
pure functions. Each API route becomes a function from the request and its
collaborators to an outcome that carries the HTTP status. The project covers:

- **Login** (`POST /api/auth/login`) checks a username and a plain-text
  password against the stored credential. It then issues a token whose
  payload is `{userId, username, team_id}`.
- **Submission** (`POST /api/submission`) authenticates a bearer token. It
  checks that `submission` is a non-empty list of single-key objects, each
  holding an http or https URL, after trimming the string values. It then
  replaces the team's stored link list with the cleaned list (an upsert
  keyed by team id).
- **Team details** (`GET /api/teamDetails`) parses the `Authorization:
  Bearer <token>` header and verifies the token. It looks up the caller's team
  and returns it without `idea_document_url` and `selected`.
- **Submissions listing** (`GET /api/submissions`) joins every team with the
  submissions whose `team_id` is the team's `_id`. It projects both onto a
  few fields.
- **Listing component** (`components/landing/Submissions.tsx`) splits teams
  into finalists and the rest and sorts each group by team name. For each
  card it picks the demo, presentation and repository links plus any other
  links.

Modules: `Wrappers` (Option), `Json` (parsed JSON values, property reads,
truthiness), `Text` (JavaScript `trim` and `split`), `Records` (the stored
documents), `Platform` (the opaque collaborators and the request),
`SubmissionRoute`, `LoginRoute`, `TeamDetailsRoute`, `SubmissionsFeed`,
`SubmissionsPage`, and `Sessions` (properties spanning routes).

Opaque collaborators are parameters, bundled in `Platform.Env`:
- `jwt.verify` and `jwt.sign` under the configured secret;
- whether the secret is configured;
- `new URL(s).protocol`;
- the database driver's casts of a query value to a team id or a username.

A collaborator that throws is modelled as `None`. A collection is a map
keyed by its lookup key, or a sequence in `find({})` order. `localeCompare`
is an abstract comparison `leq` that is assumed to be a total preorder.

Four behaviours of the code are easy to mistake, and the model follows the
code in each:
- The submission route does not turn a failed token verification into a 401.
  `jwt.verify` throws, and the catch-all answers 500. The route never checks
  the secret itself; it passes it straight to `jwt.verify`. What a missing
  secret does is therefore up to the library: jsonwebtoken 9 throws (a 500,
  `SubmissionRoute.NoSecretIsServerError`), while earlier versions accept an
  unsigned token. The model leaves that case to `verify`.
- The submission route reads the body before it looks at the token. An
  unreadable body, or a `null` one, is a 500 even without a token.
- Team details excludes `selected`, not `status`. `status` reaches the caller
  (`TeamDetailsRoute.StatusIsKept`).
- The listing endpoint sends a `submissions` list without `status`. The
  component reads a single `submission.status`. Fed that endpoint's output,
  the component shows no finalists (`SubmissionsPage.FeedHasNoFinalists`).

## Model

| member | source | states |
|---|---|---|
| Text.Trim | app/api/submission/route.ts:14 | `trim` leaves a string with no whitespace at either end and never lengthens it |
| Text.TrimUnique | app/api/submission/route.ts:14 | a trimmed string surrounded by any whitespace trims back to exactly that string, which pins `trim` down completely |
| Text.TrimIdempotent | app/api/submission/route.ts:14 | trimming twice is trimming once |
| Text.TrimIsInfix | app/api/submission/route.ts:14 | every string is its leading whitespace, then its trim, then its trailing whitespace: `trim` removes whitespace, and only from the two ends |
| Text.TrimEmptyIffAllWhitespace | app/api/submission/route.ts:14 | a string trims to the empty string exactly when it is all whitespace |
| Text.Split | app/api/submission/route.ts:31 | `split(" ")` gives at least one piece and no piece contains the separator |
| Text.JoinSplit | app/api/submission/route.ts:31 | joining the pieces of a split with the separator rebuilds the original header |
| Text.SplitJoin | app/api/submission/route.ts:31 | splitting a join of separator-free pieces gives the pieces back |
| Text.SecondSegment | app/api/submission/route.ts:31 | the token is the second space-separated piece, whatever the first word is |
| Json.Truthy | app/api/submission/route.ts:33-38 | JavaScript truthiness of a property read: `undefined` and `null` are falsy; arrays and objects are always truthy, even empty; a string is truthy iff non-empty, a number iff non-zero, a boolean iff true |
| Text.TrimPadded | app/api/submission/route.ts:14 | adding whitespace on either side of a string does not change its trim |
| SubmissionRoute.IsValidHttpUrl | app/api/submission/route.ts:12-21 | only a string can be a valid URL; anything else is refused before parsing |
| SubmissionRoute.ValidUrlIgnoresPadding | app/api/submission/route.ts:12-21 | because the value is trimmed before parsing, whitespace around a URL never changes whether it is accepted |
| SubmissionRoute.IsSingleKeyUrlObject | app/api/submission/route.ts:23-29 | only a (non-null, non-array) object with exactly one key can be a valid item |
| SubmissionRoute.ValidItemCharacterization | app/api/submission/route.ts:12-29 | an item is valid iff it is a one-member object whose value is a string that trims to a URL with scheme `http:` or `https:`; null, numbers, arrays, nested objects and multi-key objects are rejected |
| SubmissionRoute.CleanEntry | app/api/submission/route.ts:49-58 | only the string value of a single-key object is trimmed; every other entry, including single-key objects with non-string values, is returned unchanged |
| SubmissionRoute.Clean | app/api/submission/route.ts:49-58 | cleaning keeps the list's length and order, entry by entry |
| SubmissionRoute.CleanEntryPreservesValidity | app/api/submission/route.ts:12-58 | an entry is valid after cleaning exactly when it was valid before, because validation trims again |
| SubmissionRoute.AllValidAfterCleaning | app/api/submission/route.ts:49-63 | the whole list passes the `every` check after cleaning iff it would before |
| SubmissionRoute.CleanIdempotent | app/api/submission/route.ts:49-58 | cleaning an already cleaned list changes nothing |
| SubmissionRoute.Upsert | app/api/submission/route.ts:65-78 | the team's link list becomes exactly the given list; an existing document keeps its other fields; a missing one is created; every other team is untouched |
| SubmissionRoute.UpsertReplaces | app/api/submission/route.ts:65-78 | upserting A then B for one team equals upserting B alone (replace, not append) |
| SubmissionRoute.UpsertKeepsConsistent | app/api/submission/route.ts:65-78 | the upsert keeps every document filed under its own team id, so there is at most one per team |
| SubmissionRoute.HeaderToken | app/api/submission/route.ts:31 | a token is found only in a header that contains a space; the token is non-empty and has no space in it |
| SubmissionRoute.HeaderTokenOf | app/api/submission/route.ts:31 | a header `w + " " + t`, optionally followed by a space and more, yields the token `t` whatever the first word `w` is (it need not be `Bearer`) |
| SubmissionRoute.HeaderTokenEmpty | app/api/submission/route.ts:31-35 | a header whose second piece is empty (`"Bearer "`, `"Bearer  x"`) yields no token, so the request is a 401 |
| SubmissionRoute.Authenticate | app/api/submission/route.ts:31-42 | each case is an iff. Missing: no non-empty token. Throws: `verify` fails or gives `null`. NoTeamClaim: a non-null payload with a falsy `team_id`. Authenticated: a non-null payload with a truthy `team_id`, which is the authenticated team |
| SubmissionRoute.NoSecretIsServerError | app/api/submission/route.ts:37 | when `verify` throws for every token, as jsonwebtoken 9 does with no secret, a request with a token is a 500 and nothing is stored |
| SubmissionRoute.Submit | app/api/submission/route.ts:5-86 | the answer is 201 iff the submission is saved, and 401 iff the token or its claim is missing. Checks run in a fixed order of body read, then auth, then shape, then items, then save. 500 for an unreadable body; 401 for a missing token or a payload without `team_id`, whatever `submission` holds; 500 for a verify failure; 400 for a non-array or empty list, or any invalid item; 201 iff all checks pass, with the store becoming the upsert of the cleaned list. Nothing changes on failure |
| LoginRoute.PayloadFor | app/api/auth/login/route.ts:63-66 | the token payload has exactly the keys `userId`, `username`, `team_id`, holding the credential's id, username and team id |
| LoginRoute.Login | app/api/auth/login/route.ts:6-83 | 400 iff the body is unreadable or either field is falsy, before any lookup; 404 iff the user is unknown; 401 iff the stored password differs from the supplied one; 500 for a missing secret only after the password matches; 200 iff all match, with the payload for the matched credential and the token signed from it |
| TeamDetailsRoute.Public | app/api/teamDetails/route.ts:61 | the answer keeps id, participants and every field except `idea_document_url` and `selected`, with values intact |
| TeamDetailsRoute.PublicForgetsOnlyExcluded | app/api/teamDetails/route.ts:61 | two teams look the same in the answer iff they agree on everything but the two excluded fields |
| TeamDetailsRoute.StatusIsKept | app/api/teamDetails/route.ts:61 | a team's `status` field reaches the caller unchanged |
| TeamDetailsRoute.BearerToken | app/api/teamDetails/route.ts:19 | the token taken from a `Bearer ` header contains no space |
| TeamDetailsRoute.TeamDetails | app/api/teamDetails/route.ts:5-92 | 401 iff the header is absent or lacks the `Bearer ` prefix; 401 iff the token piece is empty; 500 iff the secret is missing, checked after the header and before verification; 401 iff verification fails; 401 iff the payload lacks a truthy `team_id`; 500 iff the id cannot be cast (lookup exception); 404 iff no team has it; 200 iff found, returning the team with the two fields excluded |
| TeamDetailsRoute.BearerTokenOf | app/api/teamDetails/route.ts:11-25 | the header `"Bearer " + t`, optionally followed by a space and more, passes the prefix check and yields `t` for any space-free token; only piece 1 of the split is taken |
| TeamDetailsRoute.EmptyTokens | app/api/teamDetails/route.ts:19-25 | `"Bearer "` and `"Bearer  x"` pass the prefix check but yield an empty token |
| SubmissionsFeed.SubmissionsOf | app/api/submissions/route.ts:14-16 | a submission is in a team's list iff its `team_id` equals the team's id |
| SubmissionsFeed.SubmissionsOfAppend | app/api/submissions/route.ts:14-16 | the filter keeps the submissions' original relative order |
| SubmissionsFeed.ViewOf | app/api/submissions/route.ts:28-31 | a listed submission carries the document's links, and its `createdAt` exactly when the document has one |
| SubmissionsFeed.ViewKeepsOnlyLinksAndCreation | app/api/submissions/route.ts:28-31 | two submissions are listed alike iff they agree on `submission_document_url` and `createdAt`; nothing else is carried |
| SubmissionsFeed.ViewIgnoresStatus | app/api/submissions/route.ts:28-31 | changing a submission's `status` does not change how it is listed |
| SubmissionsFeed.ProjectParticipants | app/api/submissions/route.ts:23-27 | participants keep their count and order and retain only `name`, `github_profile` and `linkedin_profile`, with values intact |
| SubmissionsFeed.Aggregate | app/api/submissions/route.ts:13-33 | one entry per team, in team order. Each entry carries the team's id and its `team_name`, `idea_title` and `idea_document_url` with their values. Participants are projected as stated above, and the submissions are exactly the team's matching submissions, projected in order |
| SubmissionsFeed.EmptyListIffNoSubmission | app/api/submissions/route.ts:13-16 | a team with no submission is still listed, with an empty list, and only such a team has an empty list |
| SubmissionsFeed.OrphanListedNowhere | app/api/submissions/route.ts:14-16 | a submission whose `team_id` names no team is listed under no team |
| SubmissionsFeed.JoinAccountsForEverySubmission | app/api/submissions/route.ts:9-33 | with distinct team ids, the submissions listed across all entries plus those with no team number exactly all submissions: none is lost or duplicated |
| SubmissionsPage.IsFinalist | components/landing/Submissions.tsx:41 | through the optional chain, a team without a `submission` is never a finalist |
| SubmissionsPage.Finalists | components/landing/Submissions.tsx:41 | a team is kept iff it is a finalist |
| SubmissionsPage.NonFinalists | components/landing/Submissions.tsx:44 | a team is kept iff it is not a finalist, including teams with no submission |
| SubmissionsPage.SortByName | components/landing/Submissions.tsx:42 | the sort returns a permutation of its input, ascending by team name under the comparison |
| SubmissionsPage.FiltersPartition | components/landing/Submissions.tsx:40-45 | the finalist and non-finalist filters together hold every team exactly as often as the input |
| SubmissionsPage.Group | components/landing/Submissions.tsx:40-45 | finalists are exactly the teams whose submission status is `finalist`, and others are the rest, including teams with no submission. Each group is a sorted permutation of its filtered subset. The two lengths sum to the input length |
| SubmissionsPage.FirstWith | components/landing/Submissions.tsx:156 | `find` picks the first entry whose key is truthy, and no earlier entry has it |
| SubmissionsPage.LinkFor | components/landing/Submissions.tsx:156-188 | the demo, ppt or github link is absent iff no entry has that key truthy; otherwise it is that key's truthy value in the first such entry |
| SubmissionsPage.Plain | components/landing/Submissions.tsx:201-202 | an entry is kept for "other" links iff none of `demo`, `ppt`, `github` is truthy in it |
| SubmissionsPage.PlainAppend | components/landing/Submissions.tsx:201-202 | the "other" filter keeps the entries' original order |
| SubmissionsPage.OtherLinks | components/landing/Submissions.tsx:201-216 | one link per kept entry, in order, labelled by its first key and pointing at its first value |
| SubmissionsPage.Panel | components/landing/Submissions.tsx:151-217 | a card with no submission or no link list shows no links; otherwise its demo, presentation, repository and other links are chosen as above |
| SubmissionsPage.ShownAbstract | components/landing/Submissions.tsx:97 | the fallback text is shown iff the abstract is missing or empty; otherwise the abstract itself is shown |
| SubmissionsPage.Render | components/landing/Submissions.tsx:47-283 | the placeholder is shown iff loading. After that, an empty input shows the empty state, and any other input shows the listing. Otherwise the finalist section appears iff some team is a finalist and the other section iff some team is not. The toggle reads "Hide" when expanded, and otherwise shows the number of other teams |
| SubmissionsPage.FeedHasNoFinalists | components/landing/Submissions.tsx:17-45 | cards built from the listing endpoint's entries contain no finalist, and every team lands among the others |
| Sessions.IssuedTokenOpensTeamDetails | app/api/teamDetails/route.ts:11-81 | assumes a configured secret, a signed token that is non-empty and has no space (as a compact JWT is), and that the token verifies to some payload whose `team_id` is the credential's, with extra claims such as `iat` allowed. Sent as `Bearer <token>`, the token gives 200 with the credential's team when it exists, 404 when it does not, 500 when the driver cannot cast the team id, and 401 when the credential's team id is empty |
| Sessions.IssuedTokenSubmits | app/api/submission/route.ts:31-85 | makes the same token assumptions, with no assumption about the secret. For a non-empty list of valid items it states that an empty team id is a 401 and an uncastable one a 500, both leaving the store unchanged. Otherwise the list is saved (201): the team's stored list becomes the cleaned items and all other teams are untouched |
| Sessions.ResubmissionReplaces | app/api/submission/route.ts:65-80 | two successful submissions with the same token leave the store as the second alone would |
| Sessions.AcceptsOneHttpsLink | app/api/submission/route.ts:45-63 | `[{"demo": "https://x.com"}]` is a non-empty array and every item is valid |
| Sessions.RefusesFtpLink | app/api/submission/route.ts:12-29 | `[{"demo": "ftp://x.com"}]` is refused for its scheme |
| Sessions.RefusesTwoKeys | app/api/submission/route.ts:23-29 | an object with two distinct keys is refused whatever its keys and values, and so is any list that holds one anywhere |

## Left out

- The database, `connectDB` and Mongoose query semantics are not modelled. A collection is a map or a sequence. Concurrent upserts and their atomicity are not modelled.
- Driver casts are parameters: a team id to an ObjectId, a username to a String. Query-operator objects in a username (`{"$ne": ...}`) are not modelled. Neither are schema defaults (`setDefaultsOnInsert`), schema validators (`runValidators`) or the timestamps the driver sets on upsert.
- JWT signing and verification, including expiry, are opaque functions. The cross-route lemmas assume that a freshly signed token is non-empty, contains no space (as a compact JWT is), and verifies to a payload whose `team_id` is the one signed. Claims the library adds, such as `iat`, are allowed. The team-details lemma also assumes a configured secret.
- The jsonwebtoken version is not fixed. `verify` decides what happens to the submission route when no secret is configured. `SubmissionRoute.NoSecretIsServerError` states the outcome under version 9 behaviour.
- WHATWG URL parsing is an opaque function from the trimmed string to its protocol.
- `localeCompare` is an abstract comparison, assumed to be a total preorder.
- SortByName: states that the result is a sorted permutation, but not that the sort is stable, although `Array.prototype.sort` is stable.
- Numbers are integers. NaN, `-0` and fractions are not modelled, so NaN's falsiness is not modelled either.
- JavaScript strings are UTF-16 code units; Dafny characters are Unicode scalar values.
- Object keys are taken in stored order and are taken to be distinct, as `JSON.parse` leaves them. `Object.keys` puts integer-like keys first; that reordering is not modelled.
- The component's link entries are typed as objects, following its own interface. `Object.values` of a string entry is not modelled. Cards need a string `team_name` (`localeCompare` on anything else throws).
- React rendering, styling and animation are not modelled. The loading timer is a flag, and the expand toggle's state is a parameter. Participant initials and profile icons are not modelled. The dashboard, navbar, prize pool, hero and registration-closed components are not part of this model.
- Request and response plumbing, console logging and the exact text of messages are not modelled. Outcomes are named constructors with their status codes.
- Exceptions thrown by `connectDB`, by `jwt.sign` or by serialising a team document are not modelled.

=== FILE: json.dfy ===
/** JSON values as `JSON.parse` hands them to a route handler, and the two
    JavaScript operations the handlers apply to them: reading a property and
    testing it for truthiness. */
module Json {
  import opened Wrappers

  /** A parsed JSON value. An object keeps its members in insertion order;
      `JSON.parse` never leaves two members with the same key. Numbers are
      integers here (see README, "Left out"). */
  datatype JValue =
    | JNull
    | JBool(b: bool)
    | JNum(n: int)
    | JStr(s: string)
    | JArr(items: seq<JValue>)
    | JObj(fields: seq<(string, JValue)>)

  type Fields = seq<(string, JValue)>

  /** Position of the first member named `key`, or `|fields|` when there is none. */
  function IndexOfKey(fields: Fields, key: string): (i: nat)
    ensures i <= |fields|
    ensures i < |fields| ==> fields[i].0 == key
    ensures forall j :: 0 <= j < i ==> fields[j].0 != key
  {
    if |fields| == 0 then 0
    else if fields[0].0 == key then 0
    else 1 + IndexOfKey(fields[1..], key)
  }

  /** `obj[key]` on an object: `None` is `undefined`. */
  function Lookup(fields: Fields, key: string): Option<JValue>
  {
    var i := IndexOfKey(fields, key);
    if i < |fields| then Some(fields[i].1) else None
  }

  /** `v[key]` on a value that is not `null`: only objects have members the
      handlers ask for; strings, numbers, booleans and arrays yield `undefined`.
      Reading a property of `null` throws, which each route handles itself. */
  function Member(v: JValue, key: string): Option<JValue>
  {
    if v.JObj? then Lookup(v.fields, key) else None
  }

  /** JavaScript truthiness of a property read (`undefined` is falsy). */
  predicate Truthy(v: Option<JValue>)
    ensures Truthy(v) ==> v.Some? && !v.value.JNull?
    ensures v.Some? && (v.value.JArr? || v.value.JObj?) ==> Truthy(v)
    ensures v.Some? && v.value.JStr? ==> (Truthy(v) <==> |v.value.s| > 0)
    ensures v.Some? && v.value.JNum? ==> (Truthy(v) <==> v.value.n != 0)
    ensures v.Some? && v.value.JBool? ==> (Truthy(v) <==> v.value.b)
  {
    match v
    case None => false
    case Some(JNull) => false
    case Some(JBool(b)) => b
    case Some(JNum(n)) => n != 0
    case Some(JStr(s)) => s != ""
    case Some(JArr(_)) => true
    case Some(JObj(_)) => true
  }

  /** The keys of an object, in order (`Object.keys`). */
  function Keys(fields: Fields): (ks: seq<string>)
    ensures |ks| == |fields|
    ensures forall i :: 0 <= i < |fields| ==> ks[i] == fields[i].0
  {
    seq(|fields|, i requires 0 <= i < |fields| => fields[i].0)
  }
}

=== FILE: login_route.dfy ===
/** `POST /api/auth/login`: checks a username and plain-text password against
    the stored credential and issues a signed token. The checks run in a
    fixed order: body, required fields, lookup, password, secret. */
module LoginRoute {
  import opened Wrappers
  import opened Json
  import opened Records
  import opened Platform

  /** The credentials collection, keyed by username (unique). */
  type Credentials = map<string, Credential>

  datatype LoginOutcome =
    | LoggedIn(token: string, payload: JValue)
    | InvalidBody
    | MissingFields
    | UserNotFound
    | WrongPassword
    | NoSecret
    | ServerError
  {
    /** The HTTP status the handler answers with. */
    function Status(): int
    {
      match this
      case LoggedIn(_, _) => 200
      case InvalidBody => 400
      case MissingFields => 400
      case UserNotFound => 404
      case WrongPassword => 401
      case NoSecret => 500
      case ServerError => 500
    }
  }

  /** The token payload `{userId, username, team_id}` for a credential. */
  function PayloadFor(c: Credential): (p: JValue)
    ensures Member(p, "userId") == Some(JStr(c.id))
    ensures Member(p, "username") == Some(JStr(c.username))
    ensures Member(p, "team_id") == Some(JStr(c.teamId))
    ensures p.JObj? && Keys(p.fields) == ["userId", "username", "team_id"]
  {
    var fields := [("userId", JStr(c.id)), ("username", JStr(c.username)), ("team_id", JStr(c.teamId))];
    assert "userId"[4] != "username"[4];
    assert "team_id"[0] != "userId"[0] && "team_id"[0] != "username"[0];
    assert IndexOfKey(fields, "username") == 1;
    assert IndexOfKey(fields[2..], "team_id") == 0;
    assert IndexOfKey(fields[1..], "team_id") == 1;
    assert IndexOfKey(fields, "team_id") == 2;
    JObj(fields)
  }

  /** The body could be read as an object-or-value whose properties can be
      read (`null.username` throws inside the same `try` as the parse). */
  predicate BodyRead(req: Request)
  {
    req.body.Some? && !req.body.value.JNull?
  }

  /** `username` and `password` are both truthy. */
  predicate FieldsPresent(req: Request)
  {
    BodyRead(req) && Truthy(Member(req.body.value, "username")) && Truthy(Member(req.body.value, "password"))
  }

  /** The handler. */
  function Login(req: Request, env: Env, creds: Credentials): (r: LoginOutcome)
    // 400 before any lookup, for an unreadable body or a falsy field.
    ensures !BodyRead(req) ==> r == InvalidBody
    ensures r == MissingFields <==> BodyRead(req) && !FieldsPresent(req)
    ensures r.Status() == 400 <==> !FieldsPresent(req)
    // Lookup.
    ensures r == UserNotFound <==>
      FieldsPresent(req)
      && env.castUsername(Member(req.body.value, "username").value).Some?
      && env.castUsername(Member(req.body.value, "username").value).value !in creds
    // Exact password comparison; a wrong password is 401 whether or not a
    // secret is configured.
    ensures r == WrongPassword <==>
      FieldsPresent(req)
      && env.castUsername(Member(req.body.value, "username").value).Some?
      && var name := env.castUsername(Member(req.body.value, "username").value).value;
         name in creds && Member(req.body.value, "password") != Some(JStr(creds[name].password))
    // The secret is only looked at once the credentials match.
    ensures r == NoSecret ==> !env.secretConfigured
    ensures r == NoSecret <==>
      FieldsPresent(req)
      && env.castUsername(Member(req.body.value, "username").value).Some?
      && var name := env.castUsername(Member(req.body.value, "username").value).value;
         name in creds && Member(req.body.value, "password") == Some(JStr(creds[name].password))
         && !env.secretConfigured
    // Success: the token carries exactly the matched credential's ids.
    ensures r.LoggedIn? <==>
      FieldsPresent(req)
      && env.castUsername(Member(req.body.value, "username").value).Some?
      && var name := env.castUsername(Member(req.body.value, "username").value).value;
         name in creds && Member(req.body.value, "password") == Some(JStr(creds[name].password))
         && env.secretConfigured
    ensures r.LoggedIn? ==>
      var name := env.castUsername(Member(req.body.value, "username").value).value;
      r.payload == PayloadFor(creds[name]) && r.token == env.sign(r.payload)
  {
    if !BodyRead(req) then InvalidBody
    else
      var username := Member(req.body.value, "username");
      var password := Member(req.body.value, "password");
      if !Truthy(username) || !Truthy(password) then MissingFields
      else
        match env.castUsername(username.value)
        case None => ServerError
        case Some(name) =>
          if name !in creds then UserNotFound
          else
            var c := creds[name];
            if password != Some(JStr(c.password)) then WrongPassword
            else if !env.secretConfigured then NoSecret
            else
              var payload := PayloadFor(c);
              LoggedIn(env.sign(payload), payload)
  }
}

=== FILE: platform.dfy ===
/** The collaborators the routes call but that are outside the model, as
    opaque functions, and the shape of an incoming request. */
module Platform {
  import opened Wrappers
  import opened Json
  import opened Records

  /** What the route handlers get from their environment.
      - `secretConfigured`: whether the signing secret variable is set.
      - `verify`: `jwt.verify` under that secret; `None` when it throws
        (bad signature, expired, malformed). When no secret is set, what it
        does depends on the library version: version 9 throws, earlier
        versions accept an unsigned token.
      - `sign`: `jwt.sign` under that secret.
      - `urlScheme`: `new URL(s).protocol`; `None` when the constructor throws.
      - `castTeamId`: the database driver's cast of a query value to a team id;
        `None` when the cast throws.
      - `castUsername`: the same for a username in a credential query. */
  datatype Env = Env(
    secretConfigured: bool,
    verify: string -> Option<JValue>,
    sign: JValue -> string,
    urlScheme: string -> Option<string>,
    castTeamId: JValue -> Option<TeamId>,
    castUsername: JValue -> Option<string>)

  /** An HTTP request: the `Authorization` header, if sent, and the body as
      `request.json()` parses it; `None` when parsing throws. */
  datatype Request = Request(authorization: Option<string>, body: Option<JValue>)
}

=== FILE: records.dfy ===
/** The stored documents the routes read and write: login credentials, team
    registrations and submissions. The database itself is not modelled; a
    collection is a map keyed by its lookup key, or a sequence in the order
    a `find({})` returns it. */
module Records {
  import opened Json

  /** A team's id as a string (`ObjectId.toString()`). */
  type TeamId = string

  /** The fields of a stored document that the model does not give a type of
      their own, by name. */
  type Doc = map<string, JValue>

  /** A login credential: the password is stored and compared as plain text. */
  datatype Credential = Credential(id: string, username: string, password: string, teamId: TeamId)

  /** A team registration: `_id`, the `participants` array (each participant
      a document of its own) and every other field. */
  datatype TeamDoc = TeamDoc(id: TeamId, participants: seq<Doc>, fields: Doc)

  /** A submission: the owning team, the `submission_document_url` list and
      every other field (`status`, `createdAt`, ...). */
  datatype SubmissionDoc = SubmissionDoc(teamId: TeamId, urls: seq<JValue>, fields: Doc)

  /** The fields of `d` named in `keep` (a projection `{a: d.a, b: d.b}`, where
      absent fields are left out of the JSON output). */
  function Restrict(d: Doc, keep: set<string>): (r: Doc)
    ensures r.Keys == d.Keys * keep
    ensures forall k :: k in r ==> r[k] == d[k]
  {
    map k | k in d && k in keep :: d[k]
  }

  /** `d` without the fields named in `drop` (an exclusion `select('-a -b')`). */
  function Without(d: Doc, drop: set<string>): (r: Doc)
    ensures r.Keys == d.Keys - drop
    ensures forall k :: k in r ==> r[k] == d[k]
  {
    map k | k in d && k !in drop :: d[k]
  }
}

=== FILE: sessions.dfy ===
/** Properties that span routes: a token issued at login is accepted by the
    team-details and submission routes, and a team's later submission
    replaces its earlier one. Signing and verification are opaque, so each
    property assumes only that verifying a freshly signed token succeeds and
    gives back a payload whose `team_id` is the one signed; the library may
    add claims of its own, such as the issue time `iat`. */
module Sessions {
  import opened Wrappers
  import opened Json
  import opened Text
  import opened Records
  import opened Platform
  import LoginRoute
  import TeamDetailsRoute
  import SubmissionRoute

  /** A token issued for credential `c` opens that credential's team, when it
      exists. A missing team is a 404, a team id the driver cannot cast is
      the lookup's exception (a 500), and a credential with an empty team id
      gets a token that the route turns away as carrying no team. */
  lemma IssuedTokenOpensTeamDetails(env: Env, c: Credential, teams: TeamDetailsRoute.Teams)
    requires env.secretConfigured
    requires ' ' !in env.sign(LoginRoute.PayloadFor(c)) && env.sign(LoginRoute.PayloadFor(c)) != ""
    requires env.verify(env.sign(LoginRoute.PayloadFor(c))).Some?
    requires Member(env.verify(env.sign(LoginRoute.PayloadFor(c))).value, "team_id") == Some(JStr(c.teamId))
    ensures var r := TeamDetailsRoute.TeamDetails(
              Request(Some("Bearer " + env.sign(LoginRoute.PayloadFor(c))), None), env, teams);
      && (c.teamId == "" ==> r == TeamDetailsRoute.BadPayload)
      && (c.teamId != "" && env.castTeamId(JStr(c.teamId)).None? ==> r == TeamDetailsRoute.QueryFailed)
      && (c.teamId != "" && env.castTeamId(JStr(c.teamId)).Some? && env.castTeamId(JStr(c.teamId)).value in teams ==>
            r == TeamDetailsRoute.Found(TeamDetailsRoute.Public(teams[env.castTeamId(JStr(c.teamId)).value])))
      && (c.teamId != "" && env.castTeamId(JStr(c.teamId)).Some? && env.castTeamId(JStr(c.teamId)).value !in teams ==>
            r == TeamDetailsRoute.TeamNotFound)
  {
    var token := env.sign(LoginRoute.PayloadFor(c));
    assert "Bearer " + token + [] == "Bearer " + token;
    TeamDetailsRoute.BearerTokenOf(token, []);
  }

  /** The body `{"submission": items}`. */
  function SubmissionBody(items: seq<JValue>): JValue
  {
    JObj([("submission", JArr(items))])
  }

  /** With a token issued for `c`, a non-empty list of valid items is saved
      and the team's stored list becomes the cleaned items, provided the team
      id is non-empty and castable. An empty team id is a 401 and an
      uncastable one a 500; neither changes the store. */
  lemma IssuedTokenSubmits(env: Env, c: Credential, items: seq<JValue>, store: SubmissionRoute.Store)
    requires ' ' !in env.sign(LoginRoute.PayloadFor(c)) && env.sign(LoginRoute.PayloadFor(c)) != ""
    requires env.verify(env.sign(LoginRoute.PayloadFor(c))).Some?
    requires Member(env.verify(env.sign(LoginRoute.PayloadFor(c))).value, "team_id") == Some(JStr(c.teamId))
    requires |items| > 0 && SubmissionRoute.AllValid(env, items)
    ensures var r := SubmissionRoute.Submit(
              Request(Some("Bearer " + env.sign(LoginRoute.PayloadFor(c))), Some(SubmissionBody(items))), env, store);
      && (c.teamId == "" ==> r.outcome == SubmissionRoute.Unauthorized && r.store == store)
      && (c.teamId != "" && env.castTeamId(JStr(c.teamId)).None? ==>
            r.outcome == SubmissionRoute.ServerError && r.store == store)
      && (c.teamId != "" && env.castTeamId(JStr(c.teamId)).Some? ==>
            && r.outcome == SubmissionRoute.Saved
            && var k := env.castTeamId(JStr(c.teamId)).value;
               k in r.store && r.store[k].urls == SubmissionRoute.Clean(items)
               && forall other :: other in store && other != k ==> other in r.store && r.store[other] == store[other])
  {
    var token := env.sign(LoginRoute.PayloadFor(c));
    assert "Bearer " + token == "Bearer" + " " + token + [];
    SecondSegment("Bearer", token, []);
    assert Member(SubmissionBody(items), "submission") == Some(JArr(items));
  }

  /** Submitting A and then B leaves the store exactly as submitting B alone
      would: the second upsert replaces, it does not append. */
  lemma ResubmissionReplaces(a: Request, b: Request, env: Env, store: SubmissionRoute.Store)
    requires a.authorization == b.authorization
    requires SubmissionRoute.Submit(a, env, store).outcome == SubmissionRoute.Saved
    requires SubmissionRoute.Submit(b, env, SubmissionRoute.Submit(a, env, store).store).outcome == SubmissionRoute.Saved
    ensures SubmissionRoute.Submit(b, env, SubmissionRoute.Submit(a, env, store).store).store
         == SubmissionRoute.Submit(b, env, store).store
  {
    var id := env.castTeamId(SubmissionRoute.Authenticate(a.authorization, env).teamId).value;
    var itemsA := Member(a.body.value, "submission").value.items;
    var itemsB := Member(b.body.value, "submission").value.items;
    SubmissionRoute.UpsertReplaces(store, id, SubmissionRoute.Clean(itemsA), SubmissionRoute.Clean(itemsB));
  }

  /** A list holding one https link passes both the shape check and the
      item check. */
  lemma AcceptsOneHttpsLink(env: Env)
    requires env.urlScheme("https://x.com") == Some("https:")
    ensures SubmissionRoute.IsNonEmptyArray(Some(JArr([JObj([("demo", JStr("https://x.com"))])])))
    ensures SubmissionRoute.AllValid(env, [JObj([("demo", JStr("https://x.com"))])])
  {
    var link := "https://x.com";
    assert Trimmed(link) by {
      assert link[0] == 'h' && link[|link| - 1] == 'm';
    }
    TrimOfTrimmed(link);
    var items := [JObj([("demo", JStr(link))])];
    assert SubmissionRoute.IsSingleKeyUrlObject(env, items[0]);
  }

  /** An ftp link is refused. */
  lemma RefusesFtpLink(env: Env)
    requires env.urlScheme("ftp://x.com") == Some("ftp:")
    ensures !SubmissionRoute.AllValid(env, [JObj([("demo", JStr("ftp://x.com"))])])
  {
    var link := "ftp://x.com";
    assert Trimmed(link) by {
      assert link[0] == 'f' && link[|link| - 1] == 'm';
    }
    TrimOfTrimmed(link);
    assert !SubmissionRoute.IsHttpScheme(env.urlScheme(link)) by {
      assert |"ftp:"| != |"http:"| && |"ftp:"| != |"https:"|;
    }
    var items := [JObj([("demo", JStr(link))])];
    assert !SubmissionRoute.IsSingleKeyUrlObject(env, items[0]);
  }

  /** An object with two distinct keys (`JSON.parse` merges repeated ones)
      is refused, whatever its keys and values, and
      so is any list holding one. */
  lemma RefusesTwoKeys(env: Env, k1: string, v1: JValue, k2: string, v2: JValue, before: seq<JValue>, after: seq<JValue>)
    requires k1 != k2
    ensures !SubmissionRoute.AllValid(env, before + [JObj([(k1, v1), (k2, v2)])] + after)
  {
    var items := before + [JObj([(k1, v1), (k2, v2)])] + after;
    assert items[|before|] == JObj([(k1, v1), (k2, v2)]);
    assert !SubmissionRoute.IsSingleKeyUrlObject(env, items[|before|]);
  }
}

=== FILE: submission_route.dfy ===
/** `POST /api/submission`: a team replaces its list of project links.
    The handler reads the body, authenticates the bearer token, checks that
    `submission` is a non-empty array, trims each single-key object's string
    value, checks every item is a single-key object holding an http or https
    URL, and upserts the team's submission document. */
module SubmissionRoute {
  import opened Wrappers
  import opened Json
  import opened Text
  import opened Records
  import opened Platform

  /** The submissions collection, keyed by team id (the upsert key). */
  type Store = map<TeamId, SubmissionDoc>

  /** Every document is filed under its own team id. */
  predicate Consistent(store: Store)
  {
    forall k :: k in store ==> store[k].teamId == k
  }

  predicate IsHttpScheme(scheme: Option<string>)
  {
    scheme == Some("http:") || scheme == Some("https:")
  }

  /** `isValidHttpUrl`: a string that, once trimmed, parses as a URL whose
      protocol is `http:` or `https:`. */
  predicate IsValidHttpUrl(env: Env, v: JValue)
    ensures IsValidHttpUrl(env, v) ==> v.JStr?
  {
    v.JStr? && IsHttpScheme(env.urlScheme(Trim(v.s)))
  }

  /** A URL is judged after trimming, so whitespace around it never changes
      the verdict. */
  lemma ValidUrlIgnoresPadding(env: Env, a: string, s: string, b: string)
    requires AllWhitespace(a) && AllWhitespace(b)
    ensures IsValidHttpUrl(env, JStr(a + s + b)) <==> IsValidHttpUrl(env, JStr(s))
  {
    TrimPadded(a, s, b);
  }

  /** `typeof v === 'string' ? v.trim() : v` */
  function TrimIfString(v: JValue): JValue
  {
    if v.JStr? then JStr(Trim(v.s)) else v
  }

  /** `isSingleKeyUrlObject`: a non-null, non-array object with exactly one
      key, whose value (trimmed if a string) is a valid http(s) URL. */
  predicate IsSingleKeyUrlObject(env: Env, v: JValue)
    ensures IsSingleKeyUrlObject(env, v) ==> v.JObj? && |v.fields| == 1
  {
    v.JObj? && |v.fields| == 1 && IsValidHttpUrl(env, TrimIfString(v.fields[0].1))
  }

  /** Validity stated without the handler's double trimming: an item is valid
      exactly when it is a one-member object whose value is a string that
      trims to an http or https URL. Numbers, nested objects, arrays, `null`
      and objects with zero or several keys are all rejected. */
  lemma ValidItemCharacterization(env: Env, v: JValue)
    ensures IsSingleKeyUrlObject(env, v) <==>
      (&& v.JObj?
       && |v.fields| == 1
       && v.fields[0].1.JStr?
       && IsHttpScheme(env.urlScheme(Trim(v.fields[0].1.s))))
  {
    if v.JObj? && |v.fields| == 1 && v.fields[0].1.JStr? {
      TrimIdempotent(v.fields[0].1.s);
    }
  }

  /** One step of the cleaning map: a single-key object whose value is a
      string gets that value trimmed; every other entry is left as it is. */
  function CleanEntry(v: JValue): (r: JValue)
    ensures v.JObj? && |v.fields| == 1 && v.fields[0].1.JStr? ==>
      r == JObj([(v.fields[0].0, JStr(Trim(v.fields[0].1.s)))])
    ensures !(v.JObj? && |v.fields| == 1 && v.fields[0].1.JStr?) ==> r == v
  {
    if v.JObj? && |v.fields| == 1 then
      var r := JObj([(v.fields[0].0, TrimIfString(v.fields[0].1))]);
      assert !v.fields[0].1.JStr? ==> v.fields == [(v.fields[0].0, v.fields[0].1)];
      r
    else v
  }

  /** `submission.map(...)`: the cleaned list. */
  function Clean(items: seq<JValue>): (r: seq<JValue>)
    ensures |r| == |items|
    ensures forall i :: 0 <= i < |items| ==> r[i] == CleanEntry(items[i])
  {
    seq(|items|, i requires 0 <= i < |items| => CleanEntry(items[i]))
  }

  /** Cleaning an entry neither makes a valid item invalid nor the converse,
      because validation trims again. */
  lemma CleanEntryPreservesValidity(env: Env, v: JValue)
    ensures IsSingleKeyUrlObject(env, CleanEntry(v)) == IsSingleKeyUrlObject(env, v)
  {
    if v.JObj? && |v.fields| == 1 && v.fields[0].1.JStr? {
      TrimIdempotent(v.fields[0].1.s);
    }
  }

  /** Cleaning twice is cleaning once. */
  lemma CleanEntryIdempotent(v: JValue)
    ensures CleanEntry(CleanEntry(v)) == CleanEntry(v)
  {
    if v.JObj? && |v.fields| == 1 && v.fields[0].1.JStr? {
      TrimIdempotent(v.fields[0].1.s);
    }
  }

  /** `cleaned.every(isSingleKeyUrlObject)` */
  predicate AllValid(env: Env, items: seq<JValue>)
  {
    forall i :: 0 <= i < |items| ==> IsSingleKeyUrlObject(env, items[i])
  }

  /** The whole list is accepted after cleaning exactly when it would have
      been accepted before. */
  lemma AllValidAfterCleaning(env: Env, items: seq<JValue>)
    ensures AllValid(env, Clean(items)) <==> AllValid(env, items)
  {
    forall i | 0 <= i < |items|
      ensures IsSingleKeyUrlObject(env, Clean(items)[i]) == IsSingleKeyUrlObject(env, items[i])
    {
      CleanEntryPreservesValidity(env, items[i]);
    }
  }

  /** Cleaning a cleaned list changes nothing. */
  lemma CleanIdempotent(items: seq<JValue>)
    ensures Clean(Clean(items)) == Clean(items)
  {
    forall i | 0 <= i < |items|
      ensures Clean(Clean(items))[i] == Clean(items)[i]
    {
      CleanEntryIdempotent(items[i]);
    }
  }

  /** `findOneAndUpdate({team_id}, {$set: {submission_document_url}}, {upsert: true})`:
      the team's link list becomes exactly `urls`; a missing document is
      created; nothing else in the store changes. */
  function Upsert(store: Store, id: TeamId, urls: seq<JValue>): (s: Store)
    ensures s.Keys == store.Keys + {id}
    ensures s[id].urls == urls
    ensures id in store ==> s[id] == store[id].(urls := urls)
    ensures id !in store ==> s[id] == SubmissionDoc(id, urls, map[])
    ensures forall k :: k in store && k != id ==> s[k] == store[k]
  {
    var doc := if id in store then store[id].(urls := urls) else SubmissionDoc(id, urls, map[]);
    store[id := doc]
  }

  /** A later upsert replaces an earlier one for the same team outright:
      submitting A and then B leaves the store as submitting B alone would. */
  lemma UpsertReplaces(store: Store, id: TeamId, a: seq<JValue>, b: seq<JValue>)
    ensures Upsert(Upsert(store, id, a), id, b) == Upsert(store, id, b)
  {
  }

  /** Upserting keeps every document filed under its own team id. */
  lemma UpsertKeepsConsistent(store: Store, id: TeamId, urls: seq<JValue>)
    requires Consistent(store)
    ensures Consistent(Upsert(store, id, urls))
  {
  }

  /** The bearer token: the second space-separated piece of the header, when
      it exists and is not empty. The first word is not looked at. */
  function HeaderToken(authorization: Option<string>): (t: Option<string>)
    ensures t.Some? ==> authorization.Some? && ' ' in authorization.value
    ensures t.Some? ==> t.value != "" && ' ' !in t.value
  {
    match authorization
    case None => None
    case Some(h) =>
      var t := Segment(h, ' ', 1);
      SecondSegmentExists(h, ' ');
      if t.Some? && t.value != "" then t else None
  }

  /** Whatever the first word is, a header `w + " " + t`, optionally followed
      by a space and more, carries the token `t`. */
  lemma HeaderTokenOf(w: string, t: string, rest: string)
    requires ' ' !in w && ' ' !in t && t != ""
    requires rest == [] || rest[0] == ' '
    ensures HeaderToken(Some(w + " " + t + rest)) == Some(t)
  {
    SecondSegment(w, t, rest);
  }

  /** A header whose second piece is empty carries no token: `"Bearer "`,
      `"Bearer  x"` and the like are turned away as unauthorized. */
  lemma HeaderTokenEmpty(w: string, rest: string)
    requires ' ' !in w
    requires rest == [] || rest[0] == ' '
    ensures HeaderToken(Some(w + " " + rest)) == None
  {
    assert w + " " + rest == w + " " + "" + rest;
    SecondSegment(w, "", rest);
  }

  /** How the token check ends. `Throws` is an exception that reaches the
      handler's catch-all: `jwt.verify` failing or a `null` payload. The
      secret is passed to `jwt.verify` unchecked, so what a missing secret
      does is up to `verify`. */
  datatype AuthStep = Missing | Throws | NoTeamClaim | Authenticated(teamId: JValue)

  function Authenticate(authorization: Option<string>, env: Env): (a: AuthStep)
    ensures a.Missing? <==> HeaderToken(authorization).None?
    ensures a.Throws? <==>
      (HeaderToken(authorization).Some?
       && (env.verify(HeaderToken(authorization).value).None?
           || env.verify(HeaderToken(authorization).value) == Some(JNull)))
    ensures a.NoTeamClaim? <==>
      (HeaderToken(authorization).Some?
       && var p := env.verify(HeaderToken(authorization).value);
          p.Some? && !p.value.JNull? && !Truthy(Member(p.value, "team_id")))
    ensures a.Authenticated? <==>
      (HeaderToken(authorization).Some?
       && var p := env.verify(HeaderToken(authorization).value);
          p.Some? && !p.value.JNull? && Truthy(Member(p.value, "team_id")))
    ensures a.Authenticated? ==>
      Member(env.verify(HeaderToken(authorization).value).value, "team_id") == Some(a.teamId)
  {
    match HeaderToken(authorization)
    case None => Missing
    case Some(t) =>
      match env.verify(t)
      case None => Throws
      case Some(p) =>
        if p.JNull? then Throws
        else if !Truthy(Member(p, "team_id")) then NoTeamClaim
        else Authenticated(Member(p, "team_id").value)
  }

  datatype SubmitOutcome = Saved | Unauthorized | NotANonEmptyArray | InvalidItem | ServerError
  {
    /** The HTTP status the handler answers with. */
    function Status(): int
    {
      match this
      case Saved => 201
      case Unauthorized => 401
      case NotANonEmptyArray => 400
      case InvalidItem => 400
      case ServerError => 500
    }
  }

  datatype SubmitResult = SubmitResult(outcome: SubmitOutcome, store: Store)

  /** The body was read and is not `null` (reading `data.submission` from
      `null` throws). */
  predicate BodyRead(req: Request)
  {
    req.body.Some? && !req.body.value.JNull?
  }

  /** `Array.isArray(submission) && submission.length > 0` */
  predicate IsNonEmptyArray(v: Option<JValue>)
  {
    v.Some? && v.value.JArr? && |v.value.items| > 0
  }

  /** The handler, from request and store to outcome and new store. */
  function Submit(req: Request, env: Env, store: Store): (r: SubmitResult)
    // Nothing is written unless the submission is saved.
    ensures r.outcome != Saved ==> r.store == store
    // The body is read before anything else: an unreadable body is a 500
    // even without a token.
    ensures !BodyRead(req) ==> r.outcome == ServerError
    // Authentication comes before any look at `submission`.
    ensures BodyRead(req) && Authenticate(req.authorization, env).Missing? ==> r.outcome == Unauthorized
    ensures BodyRead(req) && Authenticate(req.authorization, env).NoTeamClaim? ==> r.outcome == Unauthorized
    ensures BodyRead(req) && Authenticate(req.authorization, env).Throws? ==> r.outcome == ServerError
    // The status codes: 201 only for a save, 401 only for a missing token or claim.
    ensures r.outcome.Status() == 201 <==> r.outcome == Saved
    ensures r.outcome.Status() == 401 <==>
      BodyRead(req) && (Authenticate(req.authorization, env).Missing? || Authenticate(req.authorization, env).NoTeamClaim?)
    ensures r.outcome == Unauthorized <==>
      BodyRead(req) && (Authenticate(req.authorization, env).Missing? || Authenticate(req.authorization, env).NoTeamClaim?)
    // Shape and item checks, on an authenticated request.
    ensures r.outcome == NotANonEmptyArray <==>
      BodyRead(req) && Authenticate(req.authorization, env).Authenticated?
      && !IsNonEmptyArray(Member(req.body.value, "submission"))
    ensures r.outcome == InvalidItem <==>
      BodyRead(req) && Authenticate(req.authorization, env).Authenticated?
      && IsNonEmptyArray(Member(req.body.value, "submission"))
      && !AllValid(env, Member(req.body.value, "submission").value.items)
    // Success: every raw item valid, the team id castable, and the stored
    // list is exactly the cleaned list.
    ensures r.outcome == Saved <==>
      && BodyRead(req)
      && Authenticate(req.authorization, env).Authenticated?
      && IsNonEmptyArray(Member(req.body.value, "submission"))
      && AllValid(env, Member(req.body.value, "submission").value.items)
      && env.castTeamId(Authenticate(req.authorization, env).teamId).Some?
    ensures r.outcome == Saved ==>
      var id := env.castTeamId(Authenticate(req.authorization, env).teamId).value;
      r.store == Upsert(store, id, Clean(Member(req.body.value, "submission").value.items))
  {
    if !BodyRead(req) then SubmitResult(ServerError, store)
    else
      var submission := Member(req.body.value, "submission");
      match Authenticate(req.authorization, env)
      case Missing => SubmitResult(Unauthorized, store)
      case Throws => SubmitResult(ServerError, store)
      case NoTeamClaim => SubmitResult(Unauthorized, store)
      case Authenticated(teamId) =>
        if !IsNonEmptyArray(submission) then SubmitResult(NotANonEmptyArray, store)
        else
          var cleaned := Clean(submission.value.items);
          AllValidAfterCleaning(env, submission.value.items);
          if !AllValid(env, cleaned) then SubmitResult(InvalidItem, store)
          else
            match env.castTeamId(teamId)
            case None => SubmitResult(ServerError, store)
            case Some(id) => SubmitResult(Saved, Upsert(store, id, cleaned))
  }

  /** With jsonwebtoken 9 or later, `jwt.verify` throws whenever no secret is
      given; under that library, a request with a token and no configured
      secret is a 500, never a 201, whatever its body holds. */
  lemma NoSecretIsServerError(req: Request, env: Env, store: Store)
    requires !env.secretConfigured && forall t :: env.verify(t).None?
    requires HeaderToken(req.authorization).Some?
    ensures Submit(req, env, store).outcome == ServerError
    ensures Submit(req, env, store).store == store
  {
  }
}

=== FILE: submissions_feed.dfy ===
/** `GET /api/submissions`: the public listing. Every team is paired with
    the submissions whose `team_id` equals its `_id`, and both are projected
    onto a few fields. */
module SubmissionsFeed {
  import opened Wrappers
  import opened Json
  import opened Records

  /** The team fields the listing copies besides `_id` and `participants`. */
  const TeamInfoFields: set<string> := {"team_name", "idea_title", "idea_document_url"}

  /** The participant fields the listing copies. */
  const ParticipantFields: set<string> := {"name", "github_profile", "linkedin_profile"}

  /** A submission as listed: its links and its creation time, nothing else. */
  datatype SubmissionView = SubmissionView(urls: seq<JValue>, createdAt: Option<JValue>)

  /** One entry of the listing. */
  datatype TeamEntry = TeamEntry(id: TeamId, info: Doc, participants: seq<Doc>, submissions: seq<SubmissionView>)

  /** The submissions belonging to team `id`, in their original order. */
  function SubmissionsOf(id: TeamId, subs: seq<SubmissionDoc>): (r: seq<SubmissionDoc>)
    ensures |r| <= |subs|
    ensures forall d :: d in r <==> d in subs && d.teamId == id
  {
    if subs == [] then []
    else (if subs[0].teamId == id then [subs[0]] else []) + SubmissionsOf(id, subs[1..])
  }

  /** The filter keeps relative order: filtering a concatenation is
      concatenating the filtered parts. */
  lemma {:induction false} SubmissionsOfAppend(id: TeamId, a: seq<SubmissionDoc>, b: seq<SubmissionDoc>)
    ensures SubmissionsOf(id, a + b) == SubmissionsOf(id, a) + SubmissionsOf(id, b)
    decreases |a|
  {
    if a != [] {
      assert (a + b)[1..] == a[1..] + b;
      SubmissionsOfAppend(id, a[1..], b);
    } else {
      assert a + b == b;
    }
  }

  /** A submission projected onto `submission_document_url` and `createdAt`. */
  function ViewOf(d: SubmissionDoc): (v: SubmissionView)
    ensures v.urls == d.urls
    ensures v.createdAt.Some? <==> "createdAt" in d.fields
    ensures v.createdAt.Some? ==> v.createdAt.value == d.fields["createdAt"]
  {
    SubmissionView(d.urls, if "createdAt" in d.fields then Some(d.fields["createdAt"]) else None)
  }

  /** The projection keeps exactly the links and the creation time: two
      submissions are listed alike if and only if they agree on those. In
      particular `status` never reaches the listing. */
  lemma ViewKeepsOnlyLinksAndCreation(a: SubmissionDoc, b: SubmissionDoc)
    ensures ViewOf(a) == ViewOf(b) <==>
      (a.urls == b.urls
       && ("createdAt" in a.fields <==> "createdAt" in b.fields)
       && ("createdAt" in a.fields ==> a.fields["createdAt"] == b.fields["createdAt"]))
  {
  }

  lemma ViewIgnoresStatus(d: SubmissionDoc, status: JValue)
    ensures ViewOf(d.(fields := d.fields["status" := status])) == ViewOf(d)
  {
    ViewKeepsOnlyLinksAndCreation(d.(fields := d.fields["status" := status]), d);
  }

  function Views(ds: seq<SubmissionDoc>): (r: seq<SubmissionView>)
    ensures |r| == |ds|
    ensures forall i :: 0 <= i < |ds| ==> r[i] == ViewOf(ds[i])
  {
    seq(|ds|, i requires 0 <= i < |ds| => ViewOf(ds[i]))
  }

  /** `participants.map(p => ({name, github_profile, linkedin_profile}))` */
  function ProjectParticipants(ps: seq<Doc>): (r: seq<Doc>)
    ensures |r| == |ps|
    ensures forall i :: 0 <= i < |ps| ==> r[i].Keys == ps[i].Keys * ParticipantFields
    ensures forall i, k :: 0 <= i < |ps| && k in r[i] ==> r[i][k] == ps[i][k]
  {
    seq(|ps|, i requires 0 <= i < |ps| => Restrict(ps[i], ParticipantFields))
  }

  function Entry(team: TeamDoc, subs: seq<SubmissionDoc>): TeamEntry
  {
    TeamEntry(team.id, Restrict(team.fields, TeamInfoFields), ProjectParticipants(team.participants),
              Views(SubmissionsOf(team.id, subs)))
  }

  /** `teams.map(...)`: one entry per team, in team order. */
  function Aggregate(teams: seq<TeamDoc>, subs: seq<SubmissionDoc>): (r: seq<TeamEntry>)
    ensures |r| == |teams|
    ensures forall i :: 0 <= i < |teams| ==>
      && r[i].id == teams[i].id
      && r[i].info.Keys == teams[i].fields.Keys * TeamInfoFields
      && r[i].participants == ProjectParticipants(teams[i].participants)
      && r[i].submissions == Views(SubmissionsOf(teams[i].id, subs))
    ensures forall i, k :: 0 <= i < |teams| && k in r[i].info ==> r[i].info[k] == teams[i].fields[k]
  {
    if teams == [] then []
    else [Entry(teams[0], subs)] + Aggregate(teams[1..], subs)
  }

  /** A team with no submission is still listed, with an empty list; and
      only then is its list empty. */
  lemma EmptyListIffNoSubmission(teams: seq<TeamDoc>, subs: seq<SubmissionDoc>, i: nat)
    requires i < |teams|
    ensures Aggregate(teams, subs)[i].submissions == [] <==>
      forall d :: d in subs ==> d.teamId != teams[i].id
  {
    var m := SubmissionsOf(teams[i].id, subs);
    if m != [] {
      assert m[0] in m;
    }
  }

  /** A submission whose `team_id` names no team is listed under no team. */
  lemma OrphanListedNowhere(teams: seq<TeamDoc>, subs: seq<SubmissionDoc>, d: SubmissionDoc)
    requires forall i :: 0 <= i < |teams| ==> teams[i].id != d.teamId
    ensures forall i :: 0 <= i < |teams| ==> d !in SubmissionsOf(teams[i].id, subs)
  {
  }

  function IdsOf(teams: seq<TeamDoc>): set<TeamId>
  {
    set i | 0 <= i < |teams| :: teams[i].id
  }

  predicate DistinctIds(teams: seq<TeamDoc>)
  {
    forall i, j :: 0 <= i < j < |teams| ==> teams[i].id != teams[j].id
  }

  /** The submissions whose team is among `ids`, and those whose team is not. */
  function Matched(ids: set<TeamId>, subs: seq<SubmissionDoc>): nat
  {
    if subs == [] then 0 else (if subs[0].teamId in ids then 1 else 0) + Matched(ids, subs[1..])
  }

  function Orphans(ids: set<TeamId>, subs: seq<SubmissionDoc>): nat
  {
    if subs == [] then 0 else (if subs[0].teamId !in ids then 1 else 0) + Orphans(ids, subs[1..])
  }

  /** Number of submissions listed across all entries. */
  function TotalListed(entries: seq<TeamEntry>): nat
  {
    if entries == [] then 0 else |entries[0].submissions| + TotalListed(entries[1..])
  }

  lemma {:induction false} MatchedPlusOrphans(ids: set<TeamId>, subs: seq<SubmissionDoc>)
    ensures Matched(ids, subs) + Orphans(ids, subs) == |subs|
    decreases |subs|
  {
    if subs != [] {
      MatchedPlusOrphans(ids, subs[1..]);
    }
  }

  lemma {:induction false} MatchedSplit(id: TeamId, ids: set<TeamId>, subs: seq<SubmissionDoc>)
    requires id !in ids
    ensures Matched({id} + ids, subs) == |SubmissionsOf(id, subs)| + Matched(ids, subs)
    decreases |subs|
  {
    if subs != [] {
      MatchedSplit(id, ids, subs[1..]);
    }
  }

  /** The join loses and duplicates nothing: when team ids are distinct, the
      submissions listed across all entries, plus those whose team does not
      exist, are exactly all submissions. */
  lemma {:induction false} JoinAccountsForEverySubmission(teams: seq<TeamDoc>, subs: seq<SubmissionDoc>)
    requires DistinctIds(teams)
    ensures TotalListed(Aggregate(teams, subs)) + Orphans(IdsOf(teams), subs) == |subs|
  {
    ListedEqualsMatched(teams, subs);
    MatchedPlusOrphans(IdsOf(teams), subs);
  }

  lemma {:induction false} ListedEqualsMatched(teams: seq<TeamDoc>, subs: seq<SubmissionDoc>)
    requires DistinctIds(teams)
    ensures TotalListed(Aggregate(teams, subs)) == Matched(IdsOf(teams), subs)
    decreases |teams|
  {
    if teams == [] {
      assert IdsOf(teams) == {};
      ZeroMatched(subs);
    } else {
      var rest := teams[1..];
      IdsOfCons(teams);
      ListedEqualsMatched(rest, subs);
      MatchedSplit(teams[0].id, IdsOf(rest), subs);
      var entries := Aggregate(teams, subs);
      assert entries[1..] == Aggregate(rest, subs);
      assert |entries[0].submissions| == |SubmissionsOf(teams[0].id, subs)|;
      assert TotalListed(entries) == |entries[0].submissions| + TotalListed(entries[1..]);
    }
  }

  lemma IdsOfCons(teams: seq<TeamDoc>)
    requires |teams| > 0 && DistinctIds(teams)
    ensures IdsOf(teams) == {teams[0].id} + IdsOf(teams[1..])
    ensures teams[0].id !in IdsOf(teams[1..])
    ensures DistinctIds(teams[1..])
  {
    var rest := teams[1..];
    forall x | x in IdsOf(teams) ensures x in {teams[0].id} + IdsOf(rest) {
      var i :| 0 <= i < |teams| && teams[i].id == x;
      if i > 0 { assert rest[i - 1].id == x; }
    }
    forall x | x in IdsOf(rest) ensures x in IdsOf(teams) {
      var i :| 0 <= i < |rest| && rest[i].id == x;
      assert teams[i + 1].id == x;
    }
  }

  lemma {:induction false} ZeroMatched(subs: seq<SubmissionDoc>)
    ensures Matched({}, subs) == 0
    decreases |subs|
  {
    if subs != [] {
      ZeroMatched(subs[1..]);
    }
  }
}

=== FILE: submissions_page.dfy ===
/** The landing page's submissions listing. Teams are split into finalists
    and the rest, each group sorted by team name with `localeCompare`, and
    each card shows the team's demo, presentation and repository links plus
    any other links. */
module SubmissionsPage {
  import opened Wrappers
  import opened Json
  import opened Records
  import SubmissionsFeed

  /** The `submission` a card reads (all of it optional). */
  datatype CardSubmission = CardSubmission(links: Option<seq<Fields>>, abstractText: Option<string>, status: Option<string>)

  /** A team as the component receives it. */
  datatype TeamCard = TeamCard(id: TeamId, teamName: string, submission: Option<CardSubmission>)

  /** `team.submission?.status === 'finalist'` */
  predicate IsFinalist(c: TeamCard)
    ensures IsFinalist(c) ==> c.submission.Some?
  {
    c.submission.Some? && c.submission.value.status == Some("finalist")
  }

  /** `localeCompare(a, b) <= 0` is taken to be total and transitive, the
      consistency `Array.prototype.sort` needs of a comparator. */
  ghost predicate TotalPreorder(leq: (string, string) -> bool)
  {
    && (forall a, b :: leq(a, b) || leq(b, a))
    && (forall a, b, c :: leq(a, b) && leq(b, c) ==> leq(a, c))
  }

  ghost predicate SortedByName(leq: (string, string) -> bool, cards: seq<TeamCard>)
  {
    forall i, j :: 0 <= i < j < |cards| ==> leq(cards[i].teamName, cards[j].teamName)
  }

  /** Inserts `c` before the first card it does not come after. */
  function Insert(leq: (string, string) -> bool, c: TeamCard, sorted: seq<TeamCard>): (r: seq<TeamCard>)
    requires TotalPreorder(leq) && SortedByName(leq, sorted)
    ensures multiset(r) == multiset(sorted) + multiset{c}
    ensures SortedByName(leq, r)
  {
    if sorted == [] then [c]
    else if leq(c.teamName, sorted[0].teamName) then
      InsertFront(leq, c, sorted);
      [c] + sorted
    else
      var rest := Insert(leq, c, sorted[1..]);
      assert sorted == [sorted[0]] + sorted[1..];
      InsertBehind(leq, c, sorted, rest);
      [sorted[0]] + rest
  }

  lemma InsertFront(leq: (string, string) -> bool, c: TeamCard, sorted: seq<TeamCard>)
    requires TotalPreorder(leq) && SortedByName(leq, sorted)
    requires sorted != [] && leq(c.teamName, sorted[0].teamName)
    ensures SortedByName(leq, [c] + sorted)
  {
    var r := [c] + sorted;
    forall i, j | 0 <= i < j < |r|
      ensures leq(r[i].teamName, r[j].teamName)
    {
      if i == 0 && j > 1 {
        assert leq(sorted[0].teamName, sorted[j - 1].teamName);
      }
    }
  }

  lemma InsertBehind(leq: (string, string) -> bool, c: TeamCard, sorted: seq<TeamCard>, rest: seq<TeamCard>)
    requires TotalPreorder(leq) && SortedByName(leq, sorted)
    requires sorted != [] && !leq(c.teamName, sorted[0].teamName)
    requires multiset(rest) == multiset(sorted[1..]) + multiset{c}
    requires SortedByName(leq, rest)
    ensures SortedByName(leq, [sorted[0]] + rest)
  {
    var r := [sorted[0]] + rest;
    assert leq(sorted[0].teamName, c.teamName);
    forall j | 0 < j < |r|
      ensures leq(sorted[0].teamName, r[j].teamName)
    {
      assert r[j] in multiset(rest);
      if r[j] != c {
        assert r[j] in multiset(sorted[1..]);
        var k :| 0 <= k < |sorted[1..]| && sorted[1..][k] == r[j];
        assert sorted[k + 1] == r[j];
      }
    }
    forall i, j | 0 <= i < j < |r|
      ensures leq(r[i].teamName, r[j].teamName)
    {
      if i > 0 {
        assert r[i] == rest[i - 1] && r[j] == rest[j - 1];
      }
    }
  }

  /** `.sort((a, b) => a.team_name.localeCompare(b.team_name))` */
  function SortByName(leq: (string, string) -> bool, cards: seq<TeamCard>): (r: seq<TeamCard>)
    requires TotalPreorder(leq)
    ensures multiset(r) == multiset(cards)
    ensures SortedByName(leq, r)
  {
    if cards == [] then []
    else
      assert cards == [cards[0]] + cards[1..];
      Insert(leq, cards[0], SortByName(leq, cards[1..]))
  }

  function Finalists(cards: seq<TeamCard>): (r: seq<TeamCard>)
    ensures forall c :: c in r <==> c in cards && IsFinalist(c)
  {
    if cards == [] then [] else (if IsFinalist(cards[0]) then [cards[0]] else []) + Finalists(cards[1..])
  }

  function NonFinalists(cards: seq<TeamCard>): (r: seq<TeamCard>)
    ensures forall c :: c in r <==> c in cards && !IsFinalist(c)
  {
    if cards == [] then [] else (if IsFinalist(cards[0]) then [] else [cards[0]]) + NonFinalists(cards[1..])
  }

  /** Every card is in exactly one of the two filters, as often as in the input. */
  lemma {:induction false} FiltersPartition(cards: seq<TeamCard>)
    ensures multiset(Finalists(cards)) + multiset(NonFinalists(cards)) == multiset(cards)
  {
    if cards != [] {
      FiltersPartition(cards[1..]);
      assert cards == [cards[0]] + cards[1..];
    }
  }

  datatype Groups = Groups(finalists: seq<TeamCard>, others: seq<TeamCard>)

  /** `finalistTeams` and `otherTeams`. */
  function Group(leq: (string, string) -> bool, cards: seq<TeamCard>): (g: Groups)
    requires TotalPreorder(leq)
    // Each group is a sorted permutation of its filtered subset.
    ensures multiset(g.finalists) == multiset(Finalists(cards)) && SortedByName(leq, g.finalists)
    ensures multiset(g.others) == multiset(NonFinalists(cards)) && SortedByName(leq, g.others)
    // Together they hold every card exactly once.
    ensures multiset(g.finalists) + multiset(g.others) == multiset(cards)
    ensures |g.finalists| + |g.others| == |cards|
    ensures forall c :: c in g.finalists <==> c in cards && IsFinalist(c)
    ensures forall c :: c in g.others <==> c in cards && !IsFinalist(c)
  {
    FiltersPartition(cards);
    var g := Groups(SortByName(leq, Finalists(cards)), SortByName(leq, NonFinalists(cards)));
    assert |multiset(g.finalists) + multiset(g.others)| == |multiset(cards)|;
    assert forall c :: c in g.finalists <==> c in multiset(Finalists(cards));
    assert forall c :: c in g.others <==> c in multiset(NonFinalists(cards));
    g
  }

  /** Index of the first entry whose `key` member is truthy
      (`links.find(sub => sub[key])`), or `|links|` when there is none. */
  function FirstWith(links: seq<Fields>, key: string): (i: nat)
    ensures i <= |links|
    ensures i < |links| ==> Truthy(Lookup(links[i], key))
    ensures forall j :: 0 <= j < i ==> !Truthy(Lookup(links[j], key))
  {
    if links == [] then 0
    else if Truthy(Lookup(links[0], key)) then 0
    else 1 + FirstWith(links[1..], key)
  }

  /** The link shown for `key` (`demo`, `ppt` or `github`): the value in the
      first entry where it is truthy; no link when there is none. */
  function LinkFor(links: seq<Fields>, key: string): (r: Option<JValue>)
    ensures r.None? <==> forall j :: 0 <= j < |links| ==> !Truthy(Lookup(links[j], key))
    ensures r.Some? ==> Truthy(r)
    ensures r.Some? ==> FirstWith(links, key) < |links| && Lookup(links[FirstWith(links, key)], key) == r
  {
    var i := FirstWith(links, key);
    if i < |links| then Lookup(links[i], key) else None
  }

  /** None of `demo`, `ppt`, `github` is truthy. */
  predicate IsPlain(e: Fields)
  {
    !Truthy(Lookup(e, "demo")) && !Truthy(Lookup(e, "ppt")) && !Truthy(Lookup(e, "github"))
  }

  /** An "other" link: labelled by the entry's first key, pointing at its
      first value (`undefined` for an empty object). */
  datatype OtherLink = OtherLink(title: Option<string>, target: Option<JValue>)

  function OtherLinkOf(e: Fields): OtherLink
  {
    if e == [] then OtherLink(None, None) else OtherLink(Some(e[0].0), Some(e[0].1))
  }

  /** The entries with none of the three known keys, in order. */
  function Plain(links: seq<Fields>): (r: seq<Fields>)
    ensures |r| <= |links|
    ensures forall e :: e in r <==> e in links && IsPlain(e)
  {
    if links == [] then []
    else (if IsPlain(links[0]) then [links[0]] else []) + Plain(links[1..])
  }

  /** Relative order is kept: filtering a concatenation is concatenating
      the filtered parts. */
  lemma {:induction false} PlainAppend(a: seq<Fields>, b: seq<Fields>)
    ensures Plain(a + b) == Plain(a) + Plain(b)
    decreases |a|
  {
    if a != [] {
      assert (a + b)[1..] == a[1..] + b;
      PlainAppend(a[1..], b);
    } else {
      assert a + b == b;
    }
  }

  /** The other links: one per plain entry, in order. */
  function OtherLinks(links: seq<Fields>): (r: seq<OtherLink>)
    ensures |r| == |Plain(links)|
    ensures forall i :: 0 <= i < |r| ==> r[i] == OtherLinkOf(Plain(links)[i])
  {
    var plain := Plain(links);
    seq(|plain|, i requires 0 <= i < |plain| => OtherLinkOf(plain[i]))
  }

  /** The links section of a card. */
  datatype LinkPanel = LinkPanel(demo: Option<JValue>, ppt: Option<JValue>, github: Option<JValue>, others: seq<OtherLink>)

  function Panel(c: TeamCard): (p: LinkPanel)
    ensures c.submission.None? || c.submission.value.links.None? ==> p == LinkPanel(None, None, None, [])
    ensures c.submission.Some? && c.submission.value.links.Some? ==>
      var links := c.submission.value.links.value;
      p.demo == LinkFor(links, "demo") && p.ppt == LinkFor(links, "ppt")
      && p.github == LinkFor(links, "github") && p.others == OtherLinks(links)
  {
    match c.submission
    case None => LinkPanel(None, None, None, [])
    case Some(s) =>
      match s.links
      case None => LinkPanel(None, None, None, [])
      case Some(links) =>
        LinkPanel(LinkFor(links, "demo"), LinkFor(links, "ppt"), LinkFor(links, "github"), OtherLinks(links))
  }

  /** What the abstract paragraph shows. */
  datatype AbstractShown = Provided(text: string) | NoAbstract

  /** `team.submission?.abstract || 'No abstract provided'` */
  function ShownAbstract(c: TeamCard): (a: AbstractShown)
    ensures a == NoAbstract <==>
      c.submission.None? || c.submission.value.abstractText.None? || c.submission.value.abstractText == Some("")
    ensures a.Provided? ==> a.text != "" && c.submission.value.abstractText == Some(a.text)
  {
    if c.submission.Some? && c.submission.value.abstractText.Some? && c.submission.value.abstractText.value != ""
    then Provided(c.submission.value.abstractText.value)
    else NoAbstract
  }

  /** The toggle button: "Hide" when expanded, otherwise "Show n Other Submissions". */
  datatype ToggleLabel = Hide | ShowCount(n: nat)

  datatype OtherSection = OtherSection(toggle: ToggleLabel, shown: seq<TeamCard>)

  /** The page: the loading placeholder, the empty-state message, or the
      finalist section and the other-submissions section, each present only
      when its group is not empty. */
  datatype Page =
    | Loading
    | EmptyState
    | Listing(finalists: Option<seq<TeamCard>>, others: Option<OtherSection>)

  function Render(leq: (string, string) -> bool, cards: seq<TeamCard>, loading: bool, expanded: bool): (p: Page)
    requires TotalPreorder(leq)
    ensures p == Loading <==> loading
    ensures !loading ==> (p == EmptyState <==> cards == [])
    ensures !loading && cards != [] ==> p.Listing?
    ensures p.Listing? ==>
      && (p.finalists.Some? <==> exists c :: c in cards && IsFinalist(c))
      && (p.others.Some? <==> exists c :: c in cards && !IsFinalist(c))
      && (p.finalists.Some? ==> p.finalists.value == Group(leq, cards).finalists)
      && (p.others.Some? ==>
            && p.others.value.toggle == (if expanded then Hide else ShowCount(|NonFinalists(cards)|))
            && p.others.value.shown == (if expanded then Group(leq, cards).others else []))
  {
    if loading then Loading
    else if cards == [] then EmptyState
    else
      var g := Group(leq, cards);
      assert |g.others| == |NonFinalists(cards)| by {
        assert |multiset(g.others)| == |multiset(NonFinalists(cards))|;
      }
      assert g.finalists != [] ==> g.finalists[0] in g.finalists;
      assert g.others != [] ==> g.others[0] in g.others;
      Listing(
        if |g.finalists| > 0 then Some(g.finalists) else None,
        if |g.others| > 0 then Some(OtherSection(if expanded then Hide else ShowCount(|g.others|),
                                                 if expanded then g.others else []))
        else None)
  }

  /** A listing entry read as a card, as the component reads it: the entry
      has no `submission` member, so `team.submission` is `undefined`. */
  function CardOf(e: SubmissionsFeed.TeamEntry): TeamCard
    requires "team_name" in e.info && e.info["team_name"].JStr?
  {
    TeamCard(e.id, e.info["team_name"].s, None)
  }

  /** Fed the listing the submissions endpoint produces, the component finds
      no finalist: every team lands among the others, because the endpoint
      sends a `submissions` list without `status` where the component reads a
      single `submission.status`. */
  lemma FeedHasNoFinalists(leq: (string, string) -> bool, entries: seq<SubmissionsFeed.TeamEntry>, cards: seq<TeamCard>)
    requires TotalPreorder(leq)
    requires |cards| == |entries|
    requires forall i :: 0 <= i < |entries| ==>
      "team_name" in entries[i].info && entries[i].info["team_name"].JStr? && cards[i] == CardOf(entries[i])
    ensures Group(leq, cards).finalists == []
    ensures multiset(Group(leq, cards).others) == multiset(cards)
  {
    NoFinalistAmong(cards);
    var g := Group(leq, cards);
    assert |multiset(g.finalists)| == 0;
  }

  lemma {:induction false} NoFinalistAmong(cards: seq<TeamCard>)
    requires forall i :: 0 <= i < |cards| ==> cards[i].submission.None?
    ensures Finalists(cards) == [] && NonFinalists(cards) == cards
  {
    if cards != [] {
      NoFinalistAmong(cards[1..]);
    }
  }
}

=== FILE: team_details_route.dfy ===
/** `GET /api/teamDetails`: returns the caller's team registration. The
    handler checks the header format, extracts the token, checks the secret,
    verifies the token, reads `team_id` from the payload and looks the team
    up, leaving two fields out of the answer. */
module TeamDetailsRoute {
  import opened Wrappers
  import opened Json
  import opened Text
  import opened Records
  import opened Platform

  /** The teams collection, keyed by `_id`. */
  type Teams = map<TeamId, TeamDoc>

  /** The fields `select('-idea_document_url -selected')` leaves out. */
  const Excluded: set<string> := {"idea_document_url", "selected"}

  datatype DetailsOutcome =
    | Found(team: TeamDoc)
    | BadHeader
    | NoToken
    | NoSecret
    | BadToken
    | BadPayload
    | TeamNotFound
    | QueryFailed
    | ServerError
  {
    /** The HTTP status the handler answers with. */
    function Status(): int
    {
      match this
      case Found(_) => 200
      case BadHeader => 401
      case NoToken => 401
      case NoSecret => 500
      case BadToken => 401
      case BadPayload => 401
      case TeamNotFound => 404
      case QueryFailed => 500
      case ServerError => 500
    }

    /** The `status` flag of the JSON answer. */
    predicate Ok()
      ensures Ok() <==> Status() == 200
    {
      Found?
    }
  }

  /** The team as the answer carries it: every field except the excluded two. */
  function Public(t: TeamDoc): (v: TeamDoc)
    ensures v.id == t.id && v.participants == t.participants
    ensures v.fields.Keys == t.fields.Keys - Excluded
    ensures forall k :: k in v.fields ==> v.fields[k] == t.fields[k]
  {
    t.(fields := Without(t.fields, Excluded))
  }

  /** The exclusion forgets exactly the two excluded fields: two teams look
      the same in the answer if and only if they agree on everything else. */
  lemma PublicForgetsOnlyExcluded(a: TeamDoc, b: TeamDoc)
    ensures Public(a) == Public(b) <==>
      (a.id == b.id && a.participants == b.participants
       && a.fields.Keys - Excluded == b.fields.Keys - Excluded
       && forall k :: k in a.fields && k !in Excluded ==> k in b.fields && a.fields[k] == b.fields[k])
  {
    if a.id == b.id && a.participants == b.participants
       && a.fields.Keys - Excluded == b.fields.Keys - Excluded
       && forall k :: k in a.fields && k !in Excluded ==> k in b.fields && a.fields[k] == b.fields[k]
    {
      assert Public(a).fields == Public(b).fields;
    }
    if Public(a) == Public(b) {
      forall k | k in a.fields && k !in Excluded
        ensures k in b.fields && a.fields[k] == b.fields[k]
      {
        assert k in Public(a).fields;
      }
    }
  }

  /** `status` is not among the excluded fields: it reaches the caller. */
  lemma StatusIsKept(t: TeamDoc)
    requires "status" in t.fields
    ensures "status" in Public(t).fields && Public(t).fields["status"] == t.fields["status"]
  {
  }

  /** The header's token: `split(" ")[1]` of a header starting with `Bearer `. */
  function BearerToken(h: string): (t: string)
    requires StartsWith(h, "Bearer ")
    ensures ' ' !in t
  {
    assert h == "Bearer" + " " + h[7..];
    assert ' ' in h;
    Split(h, ' ')[1]
  }

  /** The token, once the header has the `Bearer ` form and its second piece
      is not empty. */
  function TokenOf(req: Request): Option<string>
  {
    if req.authorization.Some? && StartsWith(req.authorization.value, "Bearer ")
       && BearerToken(req.authorization.value) != ""
    then Some(BearerToken(req.authorization.value))
    else None
  }

  /** The verified payload, once a token is present and a secret configured. */
  function ClaimsOf(req: Request, env: Env): Option<JValue>
  {
    if TokenOf(req).Some? && env.secretConfigured then env.verify(TokenOf(req).value) else None
  }

  /** The payload's `team_id`, once the payload is readable and it is truthy. */
  function TeamClaim(req: Request, env: Env): Option<JValue>
  {
    var p := ClaimsOf(req, env);
    if p.Some? && !p.value.JNull? && Truthy(Member(p.value, "team_id"))
    then Member(p.value, "team_id")
    else None
  }

  /** The handler. */
  function TeamDetails(req: Request, env: Env, teams: Teams): (r: DetailsOutcome)
    // Header checks come first.
    ensures r == BadHeader <==> req.authorization.None? || !StartsWith(req.authorization.value, "Bearer ")
    ensures r == NoToken <==>
      req.authorization.Some? && StartsWith(req.authorization.value, "Bearer ")
      && BearerToken(req.authorization.value) == ""
    // The secret is checked after the header and before verification.
    ensures r == NoSecret <==> TokenOf(req).Some? && !env.secretConfigured
    // Verification failure is a 401 here.
    ensures r == BadToken <==>
      TokenOf(req).Some? && env.secretConfigured && env.verify(TokenOf(req).value).None?
    ensures r == BadPayload <==>
      ClaimsOf(req, env).Some? && !ClaimsOf(req, env).value.JNull?
      && !Truthy(Member(ClaimsOf(req, env).value, "team_id"))
    ensures r == ServerError <==> ClaimsOf(req, env) == Some(JNull)
    // The lookup: a failed cast is the query's exception, a 500.
    ensures r == QueryFailed <==> TeamClaim(req, env).Some? && env.castTeamId(TeamClaim(req, env).value).None?
    ensures r == TeamNotFound <==>
      TeamClaim(req, env).Some? && env.castTeamId(TeamClaim(req, env).value).Some?
      && env.castTeamId(TeamClaim(req, env).value).value !in teams
    // Success: the caller's team, minus the excluded fields.
    ensures r.Found? <==>
      TeamClaim(req, env).Some? && env.castTeamId(TeamClaim(req, env).value).Some?
      && env.castTeamId(TeamClaim(req, env).value).value in teams
    // The answer's `status` flag is true only for a team that was found.
    ensures r.Ok() <==>
      TeamClaim(req, env).Some? && env.castTeamId(TeamClaim(req, env).value).Some?
      && env.castTeamId(TeamClaim(req, env).value).value in teams
    ensures r.Found? ==> r.team == Public(teams[env.castTeamId(TeamClaim(req, env).value).value])
  {
    if req.authorization.None? || !StartsWith(req.authorization.value, "Bearer ") then BadHeader
    else
      var token := BearerToken(req.authorization.value);
      if token == "" then NoToken
      else if !env.secretConfigured then NoSecret
      else
        match env.verify(token)
        case None => BadToken
        case Some(p) =>
          if p.JNull? then ServerError
          else if !Truthy(Member(p, "team_id")) then BadPayload
          else
            match env.castTeamId(Member(p, "team_id").value)
            case None => QueryFailed
            case Some(id) =>
              if id !in teams then TeamNotFound else Found(Public(teams[id]))
  }

  /** `"Bearer " + t` yields `t` for any space-free token, whatever follows
      it after a further space: only piece 1 of the split is taken. */
  lemma BearerTokenOf(t: string, rest: string)
    requires ' ' !in t
    requires rest == [] || rest[0] == ' '
    ensures StartsWith("Bearer " + t + rest, "Bearer ")
    ensures BearerToken("Bearer " + t + rest) == t
  {
    assert "Bearer " + t + rest == "Bearer" + " " + t + rest;
    assert ("Bearer " + t + rest)[..7] == "Bearer ";
    SecondSegment("Bearer", t, rest);
  }

  /** `"Bearer "` and `"Bearer  x"` both yield an empty token: "No token provided". */
  lemma EmptyTokens(x: string)
    ensures BearerToken("Bearer ") == ""
    ensures StartsWith("Bearer  " + x, "Bearer ")
    ensures BearerToken("Bearer  " + x) == ""
  {
    assert "Bearer " == "Bearer" + " " + "" + [];
    SecondSegment("Bearer", "", []);
    assert "Bearer  " + x == "Bearer" + " " + "" + (" " + x);
    SecondSegment("Bearer", "", " " + x);
  }
}

=== FILE: text.dfy ===
/** The two string operations the routes rely on: `String.prototype.trim`
    and `String.prototype.split` with a one-character separator. */
module Text {
  import opened Wrappers

  /** The ECMAScript WhiteSpace and LineTerminator code points: the set that
      `trim` removes from both ends of a string. */
  predicate IsWhitespace(c: char)
  {
    || c == '\t' || c == '\n' || c == '\U{000B}' || c == '\U{000C}' || c == '\r'
    || c == ' ' || c == '\U{00A0}' || c == '\U{1680}'
    || ('\U{2000}' <= c <= '\U{200A}')
    || c == '\U{2028}' || c == '\U{2029}' || c == '\U{202F}' || c == '\U{205F}'
    || c == '\U{3000}' || c == '\U{FEFF}'
  }

  predicate AllWhitespace(s: string)
  {
    forall i :: 0 <= i < |s| ==> IsWhitespace(s[i])
  }

  /** Neither end of `s` is whitespace. */
  predicate Trimmed(s: string)
  {
    s == [] || (!IsWhitespace(s[0]) && !IsWhitespace(s[|s| - 1]))
  }

  /** `s` without its leading whitespace. */
  function TrimStart(s: string): (r: string)
    ensures |r| <= |s| && r == s[|s| - |r|..]
    ensures AllWhitespace(s[..|s| - |r|])
    ensures r == [] || !IsWhitespace(r[0])
  {
    if |s| > 0 && IsWhitespace(s[0]) then
      var r := TrimStart(s[1..]);
      assert s[..|s| - |r|] == [s[0]] + s[1..][..|s| - 1 - |r|];
      r
    else s
  }

  /** `s` without its trailing whitespace. */
  function TrimEnd(s: string): (r: string)
    ensures |r| <= |s| && r == s[..|r|]
    ensures AllWhitespace(s[|r|..])
    ensures r == [] || !IsWhitespace(r[|r| - 1])
  {
    if |s| > 0 && IsWhitespace(s[|s| - 1]) then
      var r := TrimEnd(s[..|s| - 1]);
      assert s[|r|..] == s[..|s| - 1][|r|..] + [s[|s| - 1]];
      r
    else s
  }

  /** `s.trim()`: the infix of `s` left after whitespace is removed from both ends. */
  function Trim(s: string): (r: string)
    ensures Trimmed(r)
    ensures |r| <= |s|
  {
    TrimEnd(TrimStart(s))
  }

  /** What `trim` removes is whitespace, from the two ends only: `s` is the
      leading whitespace, then `Trim(s)`, then the trailing whitespace. */
  lemma TrimIsInfix(s: string)
    ensures var i := |s| - |TrimStart(s)|;
      && i + |Trim(s)| <= |s|
      && s == s[..i] + Trim(s) + s[i + |Trim(s)|..]
      && AllWhitespace(s[..i]) && AllWhitespace(s[i + |Trim(s)|..])
  {
    var t := TrimStart(s);
    var r := TrimEnd(t);
    var i := |s| - |t|;
    assert s[i..i + |r|] == r;
    assert s[i + |r|..] == t[|r|..];
    Cut3(s, i, i + |r|);
  }

  /** Any string is the concatenation of its three pieces cut at `i` and `j`. */
  lemma Cut3(s: string, i: nat, j: nat)
    requires i <= j <= |s|
    ensures s == s[..i] + s[i..j] + s[j..]
  {
  }

  lemma {:induction false} TrimStartSkips(a: string, t: string)
    requires AllWhitespace(a)
    requires t == [] || !IsWhitespace(t[0])
    ensures TrimStart(a + t) == t
    decreases |a|
  {
    if a != [] {
      assert (a + t)[1..] == a[1..] + t;
      TrimStartSkips(a[1..], t);
    } else {
      assert a + t == t;
    }
  }

  lemma {:induction false} TrimEndSkips(t: string, b: string)
    requires AllWhitespace(b)
    requires t == [] || !IsWhitespace(t[|t| - 1])
    ensures TrimEnd(t + b) == t
    decreases |b|
  {
    if b != [] {
      assert (t + b)[..|t + b| - 1] == t + b[..|b| - 1];
      TrimEndSkips(t, b[..|b| - 1]);
    } else {
      assert t + b == t;
    }
  }

  /** Trim is determined by its specification: whatever whitespace surrounds
      a trimmed string, trimming gives that string back. */
  lemma TrimUnique(a: string, m: string, b: string)
    requires AllWhitespace(a) && AllWhitespace(b) && Trimmed(m)
    ensures Trim(a + m + b) == m
  {
    if m == [] {
      assert a + m + b == a + b;
      assert AllWhitespace(a + b);
      TrimStartSkips(a + b, []);
      assert a + b + [] == a + b;
    } else {
      assert a + m + b == a + (m + b);
      TrimStartSkips(a, m + b);
      TrimEndSkips(m, b);
    }
  }

  /** Trimming twice is trimming once. */
  lemma TrimIdempotent(s: string)
    ensures Trim(Trim(s)) == Trim(s)
  {
    var m := Trim(s);
    assert [] + m + [] == m;
    TrimUnique([], m, []);
  }

  lemma AllWhitespaceConcat(x: string, y: string)
    requires AllWhitespace(x) && AllWhitespace(y)
    ensures AllWhitespace(x + y)
  {
    forall j | 0 <= j < |x + y| ensures IsWhitespace((x + y)[j]) {
      if j >= |x| { assert (x + y)[j] == y[j - |x|]; }
    }
  }

  /** Moving the outer pieces of a three-piece string onto the padding. */
  lemma Regroup(a: string, x: string, m: string, y: string, b: string)
    ensures a + (x + m + y) + b == (a + x) + m + (y + b)
  {
  }

  /** Extra whitespace around a string does not change its trim. */
  lemma TrimPadded(a: string, s: string, b: string)
    requires AllWhitespace(a) && AllWhitespace(b)
    ensures Trim(a + s + b) == Trim(s)
  {
    var m := Trim(s);
    var i := |s| - |TrimStart(s)|;
    TrimIsInfix(s);
    var x, y := s[..i], s[i + |m|..];
    Regroup(a, x, m, y, b);
    AllWhitespaceConcat(a, x);
    AllWhitespaceConcat(y, b);
    TrimUnique(a + x, m, y + b);
  }

  /** A string with no whitespace at either end is its own trim. */
  lemma TrimOfTrimmed(s: string)
    requires Trimmed(s)
    ensures Trim(s) == s
  {
    assert [] + s + [] == s;
    TrimUnique([], s, []);
  }

  /** A string trims to nothing exactly when it is all whitespace. */
  lemma TrimEmptyIffAllWhitespace(s: string)
    ensures Trim(s) == [] <==> AllWhitespace(s)
  {
    if AllWhitespace(s) {
      assert s + [] + [] == s;
      TrimUnique(s, [], []);
    }
  }

  /** Position of the first `c` in `s`, or `|s|` when there is none. */
  function IndexOf(s: string, c: char): (i: nat)
    ensures i <= |s|
    ensures i < |s| ==> s[i] == c
    ensures c !in s[..i]
  {
    if |s| == 0 then 0
    else if s[0] == c then 0
    else
      var j := IndexOf(s[1..], c);
      assert s[..1 + j] == [s[0]] + s[1..][..j];
      1 + j
  }

  /** `s.split(sep)` for a one-character separator: the pieces between
      successive separators, including empty ones. */
  function Split(s: string, sep: char): (parts: seq<string>)
    ensures |parts| >= 1
    ensures forall k :: 0 <= k < |parts| ==> sep !in parts[k]
    decreases |s|
  {
    var i := IndexOf(s, sep);
    if i == |s| then
      assert s[..i] == s;
      [s]
    else
      [s[..i]] + Split(s[i + 1..], sep)
  }

  /** `parts.join(sep)`. */
  function Join(parts: seq<string>, sep: char): string
    requires |parts| >= 1
  {
    if |parts| == 1 then parts[0] else parts[0] + [sep] + Join(parts[1..], sep)
  }

  /** Splitting loses nothing: joining the pieces rebuilds the string. */
  lemma {:induction false} JoinSplit(s: string, sep: char)
    ensures Join(Split(s, sep), sep) == s
    decreases |s|
  {
    var i := IndexOf(s, sep);
    if i < |s| {
      var tail := Split(s[i + 1..], sep);
      assert Split(s, sep) == [s[..i]] + tail;
      JoinSplit(s[i + 1..], sep);
      JoinCons(s[..i], tail, sep);
      assert s == s[..i] + [sep] + s[i + 1..];
    }
  }

  lemma JoinCons(x: string, tail: seq<string>, sep: char)
    requires |tail| >= 1
    ensures Join([x] + tail, sep) == x + [sep] + Join(tail, sep)
  {
    assert ([x] + tail)[1..] == tail;
  }

  lemma IndexOfAfterPiece(p: string, sep: char, rest: string)
    requires sep !in p
    ensures IndexOf(p + [sep] + rest, sep) == |p|
  {
    var s := p + [sep] + rest;
    assert s[|p|] == sep;
    assert s[..|p|] == p;
  }

  /** A separator-free piece followed by the separator is split off first. */
  lemma SplitAfterPiece(p: string, sep: char, rest: string)
    requires sep !in p
    ensures Split(p + [sep] + rest, sep) == [p] + Split(rest, sep)
  {
    var s := p + [sep] + rest;
    IndexOfAfterPiece(p, sep, rest);
    assert s[..|p|] == p;
    assert s[|p| + 1..] == rest;
  }

  /** Joining separator-free pieces and splitting again gives the pieces back. */
  lemma {:induction false} SplitJoin(parts: seq<string>, sep: char)
    requires |parts| >= 1
    requires forall k :: 0 <= k < |parts| ==> sep !in parts[k]
    ensures Split(Join(parts, sep), sep) == parts
    decreases |parts|
  {
    var s := Join(parts, sep);
    if |parts| > 1 {
      var rest := Join(parts[1..], sep);
      assert s == parts[0] + [sep] + rest;
      SplitAfterPiece(parts[0], sep, rest);
      SplitJoin(parts[1..], sep);
      assert parts == [parts[0]] + parts[1..];
    } else {
      assert s == parts[0];
    }
  }

  /** `s.split(sep)[k]`: `None` when there are not that many pieces. */
  function Segment(s: string, sep: char, k: nat): Option<string>
  {
    var parts := Split(s, sep);
    if k < |parts| then Some(parts[k]) else None
  }

  /** `s.startsWith(p)`. */
  predicate StartsWith(s: string, p: string)
  {
    |p| <= |s| && s[..|p|] == p
  }

  /** The second space-separated piece of `w + " " + t + rest` is `t`, whatever
      the first word is, provided `t` ends at a space or at the end. */
  lemma SecondSegment(w: string, t: string, rest: string)
    requires ' ' !in w && ' ' !in t
    requires rest == [] || rest[0] == ' '
    ensures Segment(w + " " + t + rest, ' ', 1) == Some(t)
  {
    var s := w + " " + t + rest;
    assert s == w + [' '] + (t + rest);
    IndexOfAfterPiece(w, ' ', t + rest);
    assert s[|w| + 1..] == t + rest;
    assert s[..|w|] == w;
    assert Split(s, ' ') == [w] + Split(t + rest, ' ');
    if rest == [] {
      assert t + rest == t;
      assert Split(t, ' ') == [t];
    } else {
      assert t + rest == t + [' '] + rest[1..];
      IndexOfAfterPiece(t, ' ', rest[1..]);
      assert (t + rest)[..|t|] == t;
    }
  }

  /** A string has a second piece exactly when it contains the separator. */
  lemma SecondSegmentExists(s: string, sep: char)
    ensures Segment(s, sep, 1).Some? <==> sep in s
  {
  }
}

=== FILE: wrappers.dfy ===
/** Optional values. `None` plays the part of JavaScript's `undefined`
    wherever the model reads a property that may be absent. */
module Wrappers {

  datatype Option<+T> = None | Some(value: T)
}
